=== FILE: README.md ===
# Body battery app: Garmin session, data normaliser and state store

This project models the two sequential cores of a mobile app. The app shows
a user's Garmin "body battery" and lets them log lifestyle changes.

- `garmin.dfy` (module `Garmin`) covers the `GarminService`. It holds an
  in-memory access/refresh token pair and a persisted copy under the
  `garmin_tokens` key. It exchanges an OAuth 2.0 authorization code for
  tokens (section 4.1.3 of RFC 6749) and refreshes them (section 6 of
  RFC 6749), sending HTTP Basic client authentication (RFC 7617). It
  downloads stress details with a Bearer token (section 2.1 of RFC 6750),
  and on a 401 it refreshes and calls itself again.
- `body_battery.dfy` (module `BodyBattery`) covers `processBodyBatteryData`.
  It buckets `(startTimeInSeconds + offset)` samples by UTC day, keeps a
  running maximum and minimum per day, replaces the untouched sentinels by 0,
  and sorts the days by date.
- `life_changes_store.dfy` (module `LifeChangesStore`) covers the store of
  logged changes, body-battery records and the signed-in flag.
- `optional.dfy` (module `Optional`) holds the `Option` type used for `null`,
  `undefined` and NaN.

## How the model works

- I/O becomes input:
  - Each storage call (secure store or `localStorage`) is a `StoreOutcome`.
  - Each `fetch` is a `Reply`: a status and body, or a network failure.
  - `JSON.parse` and `response.json()` are the functions of a `Decoder`.
  - The environment's client id and secret are a `Credentials` value.
- Every session operation returns a `Step`: the service afterwards, the
  requests sent in order, and the value returned or the error thrown.
- The service state `Service(session, stored)` holds both the in-memory
  tokens and the persisted blob.
  - The code writes storage first and updates memory only after the write
    succeeds.
  - Every operation, run on its own, therefore preserves `Mirrors`: memory
    equals what storage holds. Calls are modelled one at a time (see
    "## Left out" on overlapping calls).
- `fetchBodyBatteryData` has no bound on its recursion.
  - The model feeds it a sequence of `Round`s. Each round holds the replies
    one pass would meet.
  - When the rounds run out, the model returns `RoundsExhausted`. The source
    would keep recursing.
- A timestamp's UTC day is `ts / 86400`. Dafny's division rounds down for a
  positive divisor, so this is the day `toISOString()` names. Day numbers
  order the same way as the `YYYY-MM-DD` strings compared by `localeCompare`.

The model follows what the code does, in particular:

- A day whose samples are all non-numeric is emitted with high 0 and low 0.
  It is not dropped (services/garmin.ts:220-221, 236-237).
- A code exchange whose token write fails still reports success. The session
  keeps its old tokens, because `saveTokens` swallows the error
  (services/garmin.ts:66-80, 132).
- A failed refresh leaves both tokens in place. Nothing in the service clears
  them.
- A 401 triggers a refresh and a retry with no bound on how often. See
  Findings.

## Model

| member | source | states |
|---|---|---|
| `Garmin.IsAuthenticated` | services/garmin.ts:242-244 | The user counts as signed in exactly when an access token is held and is not the empty string. |
| `Garmin.SaveTokens` | services/garmin.ts:66-81 | If the store write succeeds, both tokens are replaced by the new pair and the pair is persisted. If the write fails, nothing changes and no error escapes. Either way, memory still mirrors storage. |
| `Garmin.ClearTokens` | services/garmin.ts:83-96 | If the delete succeeds, both tokens are null and the user is signed out. If the delete fails, nothing changes. Clearing an already empty service leaves it unchanged. The mirror invariant is kept. |
| `Garmin.ClearTokensIdempotent` | services/garmin.ts:83-96 | Clearing a second time, whatever that delete does, gives the same state as clearing once. |
| `Garmin.ExchangeCodeForToken` | services/garmin.ts:98-141 | Missing credentials fail before any request. Otherwise exactly one authorization-code token request is sent, carrying the configured client credentials. A non-2xx reply fails with its status and body, a body that does not decode fails with "Invalid token response format", and a network failure is rethrown. Every failure leaves the service unchanged. The call succeeds exactly when the reply is 2xx and decodes, and then the tokens are saved. |
| `Garmin.ExchangeAuthenticates` | services/garmin.ts:129-132 | From any state, a successful exchange whose tokens are saved and carry an access token leaves the user signed in, with memory mirroring storage. |
| `Garmin.ExchangeStoreFailureKeepsSession` | services/garmin.ts:66-80 | As written, an exchange whose token write fails reports success but leaves the service exactly as it was. |
| `Garmin.RefreshAccessToken` | services/garmin.ts:181-208 | With no refresh token, it fails with "No refresh token available" and sends nothing. Otherwise it sends one refresh-grant request carrying the current refresh token. A non-2xx reply fails with "Failed to refresh token" and its body. A 2xx body that does not decode fails with `MalformedJson`, and a network failure is rethrown as `NetworkError`. Every failure leaves both tokens unchanged. On success the decoded tokens are saved. |
| `Garmin.Answer` | services/garmin.ts:164-174 | A data reply asks for a refresh exactly when it is a 401. Its result is the normalised records exactly when the reply is 2xx and decodes, and a missing `stressDetails` counts as empty. Any other non-2xx status fails with its body. A 2xx body that does not decode fails with `MalformedJson`, and a network failure gives `NetworkError`. |
| `Garmin.FetchBodyBatteryData` | services/garmin.ts:143-179 | Without an access token it fails with "Not authenticated" before any request, and the state is unchanged. Otherwise the first request is a data request carrying the current access token as Bearer. When the first reply is not a 401, that one request is all that is sent, the state is unchanged, and the result is the reply's outcome: the normalised records on a 2xx that decodes, `MalformedJson` if it does not decode, `FetchFailed(body)` on any other non-2xx, `NetworkError` on a network failure. Each pass sends at most two requests and at most one refresh. With no refresh request, the state is unchanged. The mirror invariant is kept. |
| `Garmin.UnauthorizedWithoutRefreshToken` | services/garmin.ts:164-168 | A 401 with no refresh token ends after the one data request with "No refresh token available". The tokens are unchanged. |
| `Garmin.UnauthorizedRefreshRejected` | services/garmin.ts:181-204 | On a 401, the refresh request carries the current refresh token. If the token endpoint answers non-2xx, the fetch fails with "Failed to refresh token" after exactly those two requests, and both tokens are unchanged. |
| `Garmin.RefreshThenRetrySucceeds` | services/garmin.ts:164-174 | A 401, then a successful refresh that is saved, then a 2xx reply: exactly one retried request, sent with the new access token, and the retry's normalised records as the result. |
| `Garmin.BrokenStoreRefreshesForever` | services/garmin.ts:164-168 | Suppose every token write fails, every data request gets a 401 and every refresh is accepted. Then pass i sends, as requests 2i and 2i+1, a data request with the same access token and a refresh-grant request with the same refresh token. The state never changes, and the call never ends within any number of rounds. |
| `Garmin.FetchWithSingleRetry` | services/garmin.ts:164-168 | The corrected fetch makes at most one refresh and at most three requests. Given two rounds it always finishes. It also fails before any request when signed out, and it keeps the mirror invariant. |
| `Garmin.FetchAttempt` | services/garmin.ts:143-179 | One attempt of the corrected fetch. After a retry it never refreshes again. |
| `Garmin.SingleRetryAgreesUnlessRetryUnauthorized` | services/garmin.ts:164-168 | The corrected fetch gives the same result as the code unless the retried request is itself answered with a 401. |
| `BodyBattery.DayOf` | services/garmin.ts:217-218 | The day number of a timestamp is the UTC day whose 86400-second span contains it. |
| `BodyBattery.Absorb` | services/garmin.ts:224-228 | Folding a value into a day keeps the day's extremes equal to the maximum and minimum of its numeric values. A NaN value changes nothing. |
| `BodyBattery.DetailReadingsAreSamples` | services/garmin.ts:214-218 | `DetailReadings` gives a detail without `timeOffsetBodyBatteryValues` no readings. Otherwise it gives one reading per entry, and each reading is an entry's value placed on the UTC day of the base time plus that entry's offset. |
| `BodyBattery.ReadingsAreSamples` | services/garmin.ts:213-218 | `Readings`, the traversal of the whole payload, produces a reading exactly when some detail with values has an entry that gives it. Details without values contribute nothing. This is the set "days that received a sample" is measured against. |
| `BodyBattery.ReadingsConcat` | services/garmin.ts:213-218 | The traversal visits the details in payload order. The readings of two runs of details are the first run's readings followed by the second's. |
| `BodyBattery.Find` | services/garmin.ts:220 | The `dailyStats[date]` lookup gives -1 exactly when the day has no entry yet. Otherwise it gives a position that holds that day. |
| `BodyBattery.BucketOf` | services/garmin.ts:220-221 | A day with no entry reads as the sentinel pair. A day with an entry reads as the extremes stored under it. |
| `BodyBattery.Record` | services/garmin.ts:216-229 | Visiting a sample creates its day's entry if it is missing and updates only that entry. The other days are untouched, and no day appears twice. |
| `BodyBattery.Tally` | services/garmin.ts:213-231 | After the whole fold, there is exactly one entry per day that received any sample. Each entry holds the maximum and minimum of that day's numeric values, or the sentinels if it had none. |
| `BodyBattery.Finish` | services/garmin.ts:233-238 | An entry is emitted with its own day. The extremes are reported, and sentinels become 0 and 0. |
| `BodyBattery.FinishAll` | services/garmin.ts:233-238 | The `.map` over the dictionary emits one record per entry, in entry order, each finished as `Finish` says. The emitted days are exactly the dictionary's days, and they stay distinct when the entries' days are. |
| `BodyBattery.Insert` | services/garmin.ts:239 | Inserting into a date-ordered list keeps it ordered, adds exactly the new record, and keeps the order strict when the day is new. |
| `BodyBattery.Sort` | services/garmin.ts:239 | The sort by date returns a permutation of its input in date order. The order is strict when no day repeats. |
| `BodyBattery.ProcessBodyBatteryData` | services/garmin.ts:210-240 | The output is in strictly ascending date order. Its days are exactly the days that received a sample, one record each. Each record's high and low are the maximum and minimum of the day's numeric values, or 0 and 0 if there were none. |
| `BodyBattery.OneRecordPerDay` | services/garmin.ts:233-239 | A strictly date-ordered output has exactly as many records as distinct days. |
| `BodyBattery.EmptyPayloadEmitsNothing` | services/garmin.ts:210-240 | An empty `stressDetails` list gives an empty result. |
| `BodyBattery.ValuelessDetailIgnored` | services/garmin.ts:213-214 | A detail without `timeOffsetBodyBatteryValues`, wherever it stands, does not change the result. |
| `BodyBattery.LowNeverAboveHigh` | services/garmin.ts:224-228 | No emitted record has its low above its high. |
| `BodyBattery.SameDayBlocksMerge` | services/garmin.ts:213-239 | Two details on one UTC day, with values 10, 50 and 5, 90, give a single record with high 90 and low 5. |
| `BodyBattery.NaNOnlyDayEmittedAsZero` | services/garmin.ts:220-237 | A day whose only value is NaN is still emitted, with high 0 and low 0. |
| `LifeChangesStore.Initial` | store/useLifeChangesStore.ts:31-33 | The store starts with no latest change, no body-battery records, and signed out. |
| `LifeChangesStore.Stamp` | store/useLifeChangesStore.ts:35 | The stored change has the supplied id and keeps every field of the submitted change. |
| `LifeChangesStore.AddChange` | store/useLifeChangesStore.ts:34-36 | The history grows by exactly one. The new change, with its id, comes first, and every older change follows in its old order. The other fields are unchanged. |
| `LifeChangesStore.GetLatestChange` | store/useLifeChangesStore.ts:37-41 | The result is null exactly when the history is empty. Otherwise it is the front change. |
| `LifeChangesStore.LatestAfterAdd` | store/useLifeChangesStore.ts:34-41 | After `addChange`, the latest change is the added one with the supplied id. |
| `LifeChangesStore.AddAllNewestFirst` | store/useLifeChangesStore.ts:34-36 | After a run of additions, the history is the additions newest first, followed by the earlier history. The other fields are untouched. |
| `LifeChangesStore.SetBodyBatteryData` | store/useLifeChangesStore.ts:42 | The records become exactly the given list. The history and the flag are unchanged. |
| `LifeChangesStore.SetAuthenticated` | store/useLifeChangesStore.ts:43 | The flag becomes the given value. The history and the records are unchanged. |
| `LifeChangesStore.SettersKeepLatest` | store/useLifeChangesStore.ts:42-43 | Neither setter changes the latest change. |

## Findings

| source | as written | input that shows it | evidently intended | confidence | as-written member | corrected member |
|---|---|---|---|---|---|---|
| services/garmin.ts:164-168 | A 401 refreshes the token and calls `fetchBodyBatteryData` again, with no bound on the number of passes. | Every token write fails, which `saveTokens` swallows (lines 76-79). The data endpoint keeps answering 401 and the token endpoint keeps accepting the refresh. Each pass resends the same expired token, so n passes send n refresh requests and the call never returns. | At most one refresh-and-retry per call. A second 401 is surfaced as an error. | medium; not executed | `Garmin.BrokenStoreRefreshesForever` | `Garmin.FetchWithSingleRetry` |

## Left out

- Singleton and loading: `getInstance` and the fire-and-forget `loadTokens`
  in the constructor (services/garmin.ts:33-64) are an asynchronous race. The
  mirror invariant is stated for each operation, assuming it held before.
- Overlapping calls: every operation is modelled as one step, run on its own.
  Two calls on the shared `GarminService` instance that overlap at an
  `await` are not modelled. That covers every await in the service: `saveTokens`
  (line 73), `clearTokens` (88), `exchangeCodeForToken` (109, 121, 132),
  `fetchBodyBatteryData` (157, 166, 169, 173) and `refreshAccessToken`
  (189, 202, 206, 207). For example, two overlapping fetches that both
  get a 401 each refresh on their own. The `Mirrors` and "tokens unchanged"
  promises hold for each call in isolation only.
- Platform branching: `Platform.OS` selects between the secure store and
  `localStorage`. Both reduce to a `StoreOutcome`.
- Foreign encodings: Base64, `URLSearchParams` and the form encoding are not
  modelled. A token request carries the credential pair and the grant
  themselves.
- Date inputs: parsing `startDate` and `endDate` into seconds is not
  modelled. The fetch takes the two upload bounds as integers.
- Non-object token bodies: a decoded token body is either an object whose
  token fields may be missing, or a decoding failure. A body that decodes to
  `null` or a number is left out. On `null`, `saveTokens` would persist
  `"null"` before the field read throws.
- Malformed payload fields: a `stressDetails` that is not an array, a
  non-numeric base time or offset, and `toISOString` throwing on a NaN or
  out-of-range date are left out. Offsets and start times are integers.
- Number semantics: values are integers after `Number(...)`, and NaN is
  `None`. Floating point, `Infinity` values and `Number(null) == 0` are not
  modelled.
- Date strings: days are day numbers, not `YYYY-MM-DD` strings. The two agree
  in order for years 0 to 9999.
- Logging: `console` output is not modelled.
- `Garmin.FetchBodyBatteryData`: does not promise termination, because the
  source does not terminate in general. The sequence of rounds bounds the
  recursion, and `RoundsExhausted` exists only in the model. Its contract
  gives the result exactly when the first reply is not a 401 (the value
  `Garmin.Answer` computes). After a 401 it bounds the requests and
  refreshes; the outcome of a retry is stated by the scenario lemmas
  `Garmin.UnauthorizedWithoutRefreshToken`, `Garmin.UnauthorizedRefreshRejected`
  and `Garmin.RefreshThenRetrySucceeds`.
- Ids: `Date.now()` id generation is out. The id is a parameter, and nothing
  is claimed about uniqueness.
- UI code: screens, components, the `useGarminData` hook and `app.config.js`
  are rendering, navigation and React effects, and are not part of this
  model. This includes the hook's check of error-message text before it
  clears the signed-in flag.

=== FILE: body_battery.dfy ===
/** The reduction of a stress-details payload to one high/low record per UTC
    calendar day (`processBodyBatteryData`). */
module BodyBattery {
  import opened Optional

  const SecondsPerDay := 86400

  /** One entry of a detail's `timeOffsetBodyBatteryValues`: the offset in
      seconds from the detail's start, and the value after `Number(...)`
      coercion, `None` standing for NaN. */
  datatype Sample = Sample(offset: int, value: Option<int>)

  /** One element of `stressDetails`. `values` is `None` when the detail has no
      `timeOffsetBodyBatteryValues`; otherwise it lists the entries in the
      order the object yields them. */
  datatype Detail = Detail(startTimeInSeconds: int, values: Option<seq<Sample>>)

  /** A sample placed on its UTC day. */
  datatype Reading = Reading(day: int, value: Option<int>)

  /** The running extremes of one day. `Untouched` is the pair of infinite
      sentinels the day starts with; the first numeric value replaces both. */
  datatype Bucket = Untouched | Range(high: int, low: int)

  /** One key of the per-day dictionary, in insertion order. */
  datatype Slot = Slot(day: int, bucket: Bucket)

  /** One emitted record. `day` counts days since 1970-01-01 and stands for
      the `YYYY-MM-DD` string: both order the same way. */
  datatype DailyStats = DailyStats(day: int, high: int, low: int)

  /** The UTC calendar day holding a Unix time in seconds, as
      `toISOString().split('T')[0]` names it. */
  function DayOf(timestamp: int): (d: int)
    ensures d * SecondsPerDay <= timestamp < (d + 1) * SecondsPerDay
  {
    timestamp / SecondsPerDay
  }

  // ---------------------------------------------------------------------
  // Reference definitions

  /** Every sample of every detail, on its day, in visiting order. */
  function Readings(details: seq<Detail>): seq<Reading>
  {
    if |details| == 0 then []
    else Readings(details[..|details| - 1]) + DetailReadings(details[|details| - 1])
  }

  /** The samples of one detail, in order; none when it has no values. */
  function DetailReadings(d: Detail): seq<Reading>
  {
    match d.values
    case None => []
    case Some(samples) =>
      seq(|samples|, i requires 0 <= i < |samples| => SampleReading(d, samples[i]))
  }

  /** A sample of `d` read on the UTC day of the detail's start plus its offset. */
  function SampleReading(d: Detail, s: Sample): Reading
  {
    Reading(DayOf(d.startTimeInSeconds + s.offset), s.value)
  }

  /** The readings the samples of one detail give, as a set. */
  ghost function SampledBy(d: Detail): set<Reading>
  {
    if d.values.None? then {} else set s | s in d.values.value :: SampleReading(d, s)
  }

  /** The readings every detail with values gives, as a set. */
  ghost function Sampled(details: seq<Detail>): set<Reading>
  {
    set d, x | d in details && x in SampledBy(d) :: x
  }

  /** One detail yields exactly its own samples, each on its UTC day; a
      detail without values yields none. */
  lemma DetailReadingsAreSamples(d: Detail)
    ensures d.values.None? ==> DetailReadings(d) == []
    ensures d.values.Some? ==> |DetailReadings(d)| == |d.values.value|
    ensures forall x :: x in DetailReadings(d) <==> x in SampledBy(d)
  {
    if d.values.Some? {
      var samples, r := d.values.value, DetailReadings(d);
      forall x | x in r ensures x in SampledBy(d) {
        var i :| 0 <= i < |r| && r[i] == x;
        assert samples[i] in samples;
      }
      forall x | x in SampledBy(d) ensures x in r {
        var s :| s in samples && x == SampleReading(d, s);
        var i :| 0 <= i < |samples| && samples[i] == s;
        assert r[i] == x;
      }
    }
  }

  /** The traversal visits the details in order: the readings of two runs of
      details are the readings of the first followed by those of the second. */
  lemma {:induction false} ReadingsConcat(a: seq<Detail>, b: seq<Detail>)
    ensures Readings(a + b) == Readings(a) + Readings(b)
    decreases |b|
  {
    if |b| == 0 {
      assert a + b == a;
    } else {
      var n := |b| - 1;
      var shorter, last := b[..n], b[n];
      SplitLastDetail(a, b);
      ReadingsConcat(a, shorter);
      ReadingsStep(a + b, a + shorter, last);
      ReadingsStep(b, shorter, last);
      AppendAssoc(Readings(a), Readings(shorter), DetailReadings(last));
    }
  }

  /** Peeling the last detail off a run, alone or after another run. */
  lemma SplitLastDetail(a: seq<Detail>, b: seq<Detail>)
    requires |b| > 0
    ensures b == b[..|b| - 1] + [b[|b| - 1]]
    ensures a + b == (a + b[..|b| - 1]) + [b[|b| - 1]]
  {
  }

  /** Appending readings is associative. */
  lemma AppendAssoc(x: seq<Reading>, y: seq<Reading>, z: seq<Reading>)
    ensures (x + y) + z == x + (y + z)
  {
  }

  /** One unfolding of `Readings`, by the last detail. */
  lemma ReadingsStep(details: seq<Detail>, prefix: seq<Detail>, last: Detail)
    requires details == prefix + [last]
    ensures Readings(details) == Readings(prefix) + DetailReadings(last)
  {
    assert details[..|details| - 1] == prefix;
  }

  /** A reading comes out of the traversal exactly when some detail with
      values has a sample that gives it. */
  lemma {:induction false} ReadingsAreSamples(details: seq<Detail>)
    ensures forall x :: x in Readings(details) <==> x in Sampled(details)
    decreases |details|
  {
    if |details| > 0 {
      var n := |details| - 1;
      var prefix, last := details[..n], details[n];
      ReadingsAreSamples(prefix);
      DetailReadingsAreSamples(last);
      assert details == prefix + [last];
      forall x ensures x in Sampled(details) <==> x in Sampled(prefix) || x in SampledBy(last) {
        if x in Sampled(details) {
          var d :| d in details && x in SampledBy(d);
          if d != last {
            assert d in prefix;
          }
        }
        if x in SampledBy(last) {
          assert last in details;
        }
      }
    }
  }

  /** The days that received at least one sample, numeric or not. */
  ghost function DaysOf(rs: seq<Reading>): set<int>
  {
    set r | r in rs :: r.day
  }

  /** The numeric values that fell on `day`. */
  ghost function NumericOn(rs: seq<Reading>, day: int): set<int>
  {
    set r | r in rs && r.day == day && r.value.Some? :: r.value.value
  }

  /** `b` holds the extremes of `values`, or the sentinels when there are none. */
  ghost predicate Summarises(b: Bucket, values: set<int>)
  {
    match b
    case Untouched => values == {}
    case Range(high, low) =>
      high in values && low in values && forall v :: v in values ==> low <= v <= high
  }

  /** What an emitted record must say about the numeric values of its day:
      their maximum and minimum, or 0 and 0 when there were none. */
  ghost predicate Reports(e: DailyStats, values: set<int>)
  {
    if values == {} then e.high == 0 && e.low == 0
    else e.high in values && e.low in values && forall v :: v in values ==> e.low <= v <= e.high
  }

  ghost function Days(t: seq<Slot>): set<int>
  {
    set s | s in t :: s.day
  }

  ghost predicate DistinctSlots(t: seq<Slot>)
  {
    forall i, j :: 0 <= i < j < |t| ==> t[i].day != t[j].day
  }

  ghost function DaysIn(stats: seq<DailyStats>): set<int>
  {
    set e | e in stats :: e.day
  }

  ghost predicate DistinctDays(stats: seq<DailyStats>)
  {
    forall i, j :: 0 <= i < j < |stats| ==> stats[i].day != stats[j].day
  }

  ghost predicate Ascending(stats: seq<DailyStats>)
  {
    forall i, j :: 0 <= i < j < |stats| ==> stats[i].day <= stats[j].day
  }

  ghost predicate StrictlyAscending(stats: seq<DailyStats>)
  {
    forall i, j :: 0 <= i < j < |stats| ==> stats[i].day < stats[j].day
  }

  // ---------------------------------------------------------------------
  // The fold into the per-day dictionary

  /** One step of `Math.max`/`Math.min` against the running extremes; a NaN
      value (`None`) is skipped. */
  function Absorb(b: Bucket, value: Option<int>): (b': Bucket)
    ensures forall vs :: Summarises(b, vs) ==>
      Summarises(b', if value.Some? then vs + {value.value} else vs)
  {
    match value
    case None => b
    case Some(v) =>
      match b
      case Untouched => Range(v, v)
      case Range(high, low) =>
        Range(if v > high then v else high, if v < low then v else low)
  }

  /** The position of `day` in the dictionary, or -1 when it has no key yet. */
  function Find(t: seq<Slot>, day: int): (i: int)
    ensures -1 <= i < |t|
    ensures 0 <= i ==> t[i].day == day
    ensures i == -1 <==> day !in Days(t)
  {
    if |t| == 0 then -1
    else if t[|t| - 1].day == day then |t| - 1
    else
      var i := Find(t[..|t| - 1], day);
      assert forall s :: s in t ==> s in t[..|t| - 1] || s == t[|t| - 1];
      i
  }

  /** The running extremes stored under `day`, or the sentinels when absent. */
  function BucketOf(t: seq<Slot>, day: int): (b: Bucket)
    ensures day !in Days(t) ==> b == Untouched
    ensures day in Days(t) ==> Slot(day, b) in t
  {
    var i := Find(t, day);
    if i < 0 then Untouched else t[i].bucket
  }

  /** Visit one sample: create the day's slot with the sentinels if it is
      missing, then fold the value into it. */
  function Record(t: seq<Slot>, r: Reading): (t': seq<Slot>)
    requires DistinctSlots(t)
    ensures DistinctSlots(t')
    ensures Days(t') == Days(t) + {r.day}
    ensures forall s :: s in t' && s.day != r.day ==> s in t
    ensures forall s :: s in t' && s.day == r.day ==> s.bucket == Absorb(BucketOf(t, r.day), r.value)
  {
    var i := Find(t, r.day);
    if i < 0 then
      t + [Slot(r.day, Absorb(Untouched, r.value))]
    else
      var t' := t[i := Slot(r.day, Absorb(t[i].bucket, r.value))];
      UpdatedMembers(t, i, t'[i]);
      t'
  }

  /** Overwriting position `i` keeps every other slot and adds only `s`. */
  lemma UpdatedMembers(t: seq<Slot>, i: int, s: Slot)
    requires 0 <= i < |t|
    ensures forall x :: x in t[i := s] ==> x in t || x == s
    ensures forall x :: x in t && x.day != t[i].day ==> x in t[i := s]
  {
    var t' := t[i := s];
    forall x | x in t'
      ensures x in t || x == s
    {
      var k :| 0 <= k < |t'| && t'[k] == x;
      if k != i {
        assert t'[k] == t[k];
      }
    }
    forall x | x in t && x.day != t[i].day
      ensures x in t'
    {
      var k :| 0 <= k < |t| && t[k] == x;
      assert t'[k] == x;
    }
  }

  /** A day missing from the dictionary has seen no numeric value. */
  lemma BucketOfSummarises(t: seq<Slot>, rs: seq<Reading>, day: int)
    requires DistinctSlots(t)
    requires Days(t) == DaysOf(rs)
    requires forall s :: s in t ==> Summarises(s.bucket, NumericOn(rs, s.day))
    ensures Summarises(BucketOf(t, day), NumericOn(rs, day))
  {
    var i := Find(t, day);
    if 0 <= i {
      assert t[i] in t;
    }
  }

  /** The numeric value one reading adds to `day`, if any. */
  ghost function Contribution(r: Reading, day: int): set<int>
  {
    if r.day == day && r.value.Some? then {r.value.value} else {}
  }

  /** How the reference sets grow when one reading is appended. */
  lemma SplitLast(rs: seq<Reading>)
    requires |rs| > 0
    ensures DaysOf(rs) == DaysOf(rs[..|rs| - 1]) + {rs[|rs| - 1].day}
    ensures forall day :: NumericOn(rs, day) == NumericOn(rs[..|rs| - 1], day) + Contribution(rs[|rs| - 1], day)
  {
    var prefix, last := rs[..|rs| - 1], rs[|rs| - 1];
    assert rs == prefix + [last];
    assert forall r :: r in rs <==> r in prefix || r == last;
  }

  /** The whole `forEach` fold: one slot per day that received a sample, and
      each slot holding the extremes of that day's numeric values. */
  function Tally(rs: seq<Reading>): (t: seq<Slot>)
    ensures DistinctSlots(t)
    ensures Days(t) == DaysOf(rs)
    ensures forall s :: s in t ==> Summarises(s.bucket, NumericOn(rs, s.day))
  {
    if |rs| == 0 then []
    else
      var prefix, last := rs[..|rs| - 1], rs[|rs| - 1];
      var t := Tally(prefix);
      SplitLast(rs);
      BucketOfSummarises(t, prefix, last.day);
      Record(t, last)
  }

  // ---------------------------------------------------------------------
  // Emission and sorting

  /** Replace the sentinels of a day that saw no numeric value by 0. */
  function Finish(s: Slot): (e: DailyStats)
    ensures e.day == s.day
    ensures forall vs :: Summarises(s.bucket, vs) ==> Reports(e, vs)
  {
    match s.bucket
    case Untouched => DailyStats(s.day, 0, 0)
    case Range(high, low) => DailyStats(s.day, high, low)
  }

  /** The `map` over the dictionary's entries. */
  function FinishAll(t: seq<Slot>): (u: seq<DailyStats>)
    ensures |u| == |t|
    ensures forall i :: 0 <= i < |t| ==> u[i] == Finish(t[i])
    ensures DistinctSlots(t) ==> DistinctDays(u)
    ensures DaysIn(u) == Days(t)
  {
    var u := seq(|t|, i requires 0 <= i < |t| => Finish(t[i]));
    assert forall e :: e in u ==> exists i :: 0 <= i < |t| && e == u[i] && e.day == t[i].day;
    assert forall s :: s in t ==> exists i :: 0 <= i < |t| && s == t[i] && u[i].day == s.day;
    u
  }

  lemma FinishedReports(t: seq<Slot>, rs: seq<Reading>)
    requires forall s :: s in t ==> Summarises(s.bucket, NumericOn(rs, s.day))
    ensures forall e :: e in FinishAll(t) ==> Reports(e, NumericOn(rs, e.day))
  {
    var u := FinishAll(t);
    forall e | e in u
      ensures Reports(e, NumericOn(rs, e.day))
    {
      var i :| 0 <= i < |u| && u[i] == e;
      assert t[i] in t;
    }
  }

  /** Insert into a list ordered by day, before the first later day. */
  function Insert(x: DailyStats, stats: seq<DailyStats>): (r: seq<DailyStats>)
    requires Ascending(stats)
    ensures Ascending(r)
    ensures multiset(r) == multiset(stats) + multiset{x}
    ensures StrictlyAscending(stats) && x.day !in DaysIn(stats) ==> StrictlyAscending(r)
  {
    if |stats| == 0 then [x]
    else if x.day <= stats[0].day then
      assert stats[0] in stats;
      Prepend(x, stats);
      [x] + stats
    else
      TailFacts(stats);
      var rest := Insert(x, stats[1..]);
      InsertedBounded(x, stats, rest);
      Prepend(stats[0], rest);
      [stats[0]] + rest
  }

  /** Putting a record with the least day in front keeps the order. */
  lemma Prepend(h: DailyStats, rest: seq<DailyStats>)
    requires Ascending(rest)
    requires forall i :: 0 <= i < |rest| ==> h.day <= rest[i].day
    ensures Ascending([h] + rest)
    ensures StrictlyAscending(rest) && (forall i :: 0 <= i < |rest| ==> h.day < rest[i].day) ==>
      StrictlyAscending([h] + rest)
  {
  }

  /** The records of `rest` are those of `stats[1..]` plus `x`, so they all
      come after the head of `stats`. */
  lemma InsertedBounded(x: DailyStats, stats: seq<DailyStats>, rest: seq<DailyStats>)
    requires |stats| > 0 && stats[0].day < x.day
    requires multiset(rest) == multiset(stats[1..]) + multiset{x}
    requires Ascending(stats)
    ensures forall i :: 0 <= i < |rest| ==> stats[0].day <= rest[i].day
    ensures StrictlyAscending(stats) ==> forall i :: 0 <= i < |rest| ==> stats[0].day < rest[i].day
  {
    forall i | 0 <= i < |rest|
      ensures stats[0].day <= rest[i].day
      ensures StrictlyAscending(stats) ==> stats[0].day < rest[i].day
    {
      assert rest[i] in multiset(rest);
      if rest[i] != x {
        assert rest[i] in multiset(stats[1..]);
        var k :| 0 <= k < |stats[1..]| && stats[1..][k] == rest[i];
        assert stats[k + 1] == rest[i];
      }
    }
  }

  /** What the tail of an ordered list inherits from it. */
  lemma TailFacts(stats: seq<DailyStats>)
    requires |stats| > 0
    ensures stats == [stats[0]] + stats[1..]
    ensures Ascending(stats) ==> Ascending(stats[1..])
    ensures StrictlyAscending(stats) ==> StrictlyAscending(stats[1..])
    ensures DaysIn(stats[1..]) <= DaysIn(stats)
  {
    assert forall e :: e in stats[1..] ==> e in stats;
  }

  lemma SameMembers(a: seq<DailyStats>, b: seq<DailyStats>)
    requires multiset(a) == multiset(b)
    ensures forall e :: e in a <==> e in b
  {
    forall e
      ensures e in a <==> e in b
    {
      assert e in a <==> e in multiset(a);
      assert e in b <==> e in multiset(b);
    }
  }

  /** A non-empty list holds its head and the records of its tail. */
  lemma HeadMultiset(stats: seq<DailyStats>)
    requires |stats| > 0
    ensures multiset(stats) == multiset(stats[1..]) + multiset{stats[0]}
  {
    assert stats == [stats[0]] + stats[1..];
  }

  /** With no repeated day, the head's day is not among the other records. */
  lemma HeadDayFresh(stats: seq<DailyStats>, rest: seq<DailyStats>)
    requires |stats| > 0 && DistinctDays(stats)
    requires forall e :: e in rest <==> e in stats[1..]
    ensures DistinctDays(stats[1..])
    ensures stats[0].day !in DaysIn(rest)
  {
  }

  /** The `sort` by date: ordered, a permutation of its input, and strictly
      ordered when the input has no repeated day. */
  function Sort(stats: seq<DailyStats>): (r: seq<DailyStats>)
    ensures Ascending(r)
    ensures multiset(r) == multiset(stats)
    ensures forall e :: e in r <==> e in stats
    ensures DistinctDays(stats) ==> StrictlyAscending(r)
  {
    if |stats| == 0 then []
    else
      var rest := Sort(stats[1..]);
      var r := Insert(stats[0], rest);
      HeadMultiset(stats);
      SameMembers(r, stats);
      assert DistinctDays(stats) ==> DistinctDays(stats[1..]) && stats[0].day !in DaysIn(rest) by {
        if DistinctDays(stats) {
          HeadDayFresh(stats, rest);
        }
      }
      r
  }

  /** `processBodyBatteryData`: at most one record per day, in strictly
      ascending date order; exactly the days that received a sample; each
      record carrying the maximum and minimum of its day's numeric values,
      or 0 and 0 for a day whose values were all NaN. */
  function ProcessBodyBatteryData(details: seq<Detail>): (stats: seq<DailyStats>)
    ensures StrictlyAscending(stats)
    ensures DaysIn(stats) == DaysOf(Readings(details))
    ensures |stats| == |DaysOf(Readings(details))|
    ensures forall e :: e in stats ==> Reports(e, NumericOn(Readings(details), e.day))
  {
    var rs := Readings(details);
    var t := Tally(rs);
    var unsorted := FinishAll(t);
    FinishedReports(t, rs);
    var stats := Sort(unsorted);
    OneRecordPerDay(stats);
    stats
  }

  // ---------------------------------------------------------------------
  // Properties

  /** No detail, no day. */
  lemma EmptyPayloadEmitsNothing()
    ensures ProcessBodyBatteryData([]) == []
  {
    var stats := ProcessBodyBatteryData([]);
    assert DaysIn(stats) == {};
  }

  /** A detail without `timeOffsetBodyBatteryValues` changes nothing,
      wherever it stands in the payload. */
  lemma ValuelessDetailIgnored(before: seq<Detail>, d: Detail, after: seq<Detail>)
    requires d.values.None?
    ensures ProcessBodyBatteryData(before + [d] + after) == ProcessBodyBatteryData(before + after)
  {
    ReadingsWithoutValueless(before, d, after);
  }

  lemma {:induction false} ReadingsWithoutValueless(before: seq<Detail>, d: Detail, after: seq<Detail>)
    requires d.values.None?
    ensures Readings(before + [d] + after) == Readings(before + after)
    decreases |after|
  {
    if |after| == 0 {
      assert (before + [d] + after)[..|before|] == before;
      assert before + after == before;
    } else {
      var n := |after| - 1;
      ReadingsWithoutValueless(before, d, after[..n]);
      assert (before + [d] + after)[..|before + [d] + after| - 1] == before + [d] + after[..n];
      assert (before + after)[..|before + after| - 1] == before + after[..n];
    }
  }

  /** The emitted record of a day never has its low above its high. */
  lemma LowNeverAboveHigh(details: seq<Detail>)
    ensures forall e :: e in ProcessBodyBatteryData(details) ==> e.low <= e.high
  {
    var stats := ProcessBodyBatteryData(details);
    forall e | e in stats
      ensures e.low <= e.high
    {
      var vs := NumericOn(Readings(details), e.day);
      assert Reports(e, vs);
      if vs != {} {
        assert e.low in vs;
      }
    }
  }

  /** Two details on the same UTC day, with values [10, 50] and [5, 90],
      give one record with high 90 and low 5. */
  lemma SameDayBlocksMerge(start1: int, start2: int)
    requires DayOf(start1) == DayOf(start1 + 60) == DayOf(start2) == DayOf(start2 + 60)
    ensures ProcessBodyBatteryData(SameDayBlocks(start1, start2)) == [DailyStats(DayOf(start1), 90, 5)]
  {
    var day := DayOf(start1);
    var rs := Readings(SameDayBlocks(start1, start2));
    SameDayBlocksSets(start1, start2);
    var stats := ProcessBodyBatteryData(SameDayBlocks(start1, start2));
    OneRecordPerDay(stats);
    assert |stats| == 1;
    var e := stats[0];
    assert e in stats;
    assert e.day == day by {
      assert e.day in DaysIn(stats);
    }
    assert Reports(e, NumericOn(rs, day));
    ExtremesOfExample(e, NumericOn(rs, day));
    assert stats == [DailyStats(day, 90, 5)];
  }

  function SameDayBlocks(start1: int, start2: int): seq<Detail>
  {
    [ Detail(start1, Some([Sample(0, Some(10)), Sample(60, Some(50))])),
      Detail(start2, Some([Sample(0, Some(5)), Sample(60, Some(90))])) ]
  }

  lemma SameDayBlocksSets(start1: int, start2: int)
    requires DayOf(start1) == DayOf(start1 + 60) == DayOf(start2) == DayOf(start2 + 60)
    ensures DaysOf(Readings(SameDayBlocks(start1, start2))) == {DayOf(start1)}
    ensures NumericOn(Readings(SameDayBlocks(start1, start2)), DayOf(start1)) == {10, 50, 5, 90}
  {
    var day := DayOf(start1);
    SameDayBlocksReadings(start1, start2);
    FourReadings(Readings(SameDayBlocks(start1, start2)), day);
  }

  lemma SameDayBlocksReadings(start1: int, start2: int)
    requires DayOf(start1) == DayOf(start1 + 60) == DayOf(start2) == DayOf(start2 + 60)
    ensures var day := DayOf(start1);
      Readings(SameDayBlocks(start1, start2)) ==
        [Reading(day, Some(10)), Reading(day, Some(50)), Reading(day, Some(5)), Reading(day, Some(90))]
  {
    var day := DayOf(start1);
    var details := SameDayBlocks(start1, start2);
    assert details[..1] == [details[0]];
    assert details[..1][..0] == [];
    assert Readings(details[..1]) == DetailReadings(details[0]);
    assert DetailReadings(details[0]) == [Reading(day, Some(10)), Reading(day, Some(50))];
    assert DetailReadings(details[1]) == [Reading(day, Some(5)), Reading(day, Some(90))];
  }

  lemma FourReadings(rs: seq<Reading>, day: int)
    requires rs == [Reading(day, Some(10)), Reading(day, Some(50)), Reading(day, Some(5)), Reading(day, Some(90))]
    ensures DaysOf(rs) == {day}
    ensures NumericOn(rs, day) == {10, 50, 5, 90}
  {
    assert forall r :: r in rs ==> r.day == day;
    assert rs[0] in rs && rs[1] in rs && rs[2] in rs && rs[3] in rs;
  }

  lemma ExtremesOfExample(e: DailyStats, vs: set<int>)
    requires vs == {10, 50, 5, 90} && Reports(e, vs)
    ensures e.high == 90 && e.low == 5
  {
    assert 90 in vs && 5 in vs;
  }

  lemma DaysInConcat(a: seq<DailyStats>, b: seq<DailyStats>)
    ensures DaysIn(a + b) == DaysIn(a) + DaysIn(b)
  {
    assert forall e :: e in a + b <==> e in a || e in b;
  }

  /** In a strictly ordered list the head's day is new to the rest. */
  lemma HeadDaySplit(stats: seq<DailyStats>)
    requires |stats| > 0 && StrictlyAscending(stats)
    ensures stats[0].day !in DaysIn(stats[1..])
    ensures DaysIn(stats) == {stats[0].day} + DaysIn(stats[1..])
  {
    var head, tail := stats[0], stats[1..];
    assert stats == [head] + tail;
    DaysInConcat([head], tail);
    assert DaysIn([head]) == {head.day};
    forall e | e in tail
      ensures e.day != head.day
    {
      var k :| 0 <= k < |tail| && tail[k] == e;
      assert stats[k + 1] == e;
    }
  }

  /** A strictly ordered list has exactly as many records as days. */
  lemma {:induction false} OneRecordPerDay(stats: seq<DailyStats>)
    requires StrictlyAscending(stats)
    ensures |DaysIn(stats)| == |stats|
  {
    if |stats| > 0 {
      TailFacts(stats);
      OneRecordPerDay(stats[1..]);
      HeadDaySplit(stats);
    }
  }

  /** A day whose only value is NaN is still emitted, with 0 and 0. */
  lemma NaNOnlyDayEmittedAsZero(start: int)
    ensures ProcessBodyBatteryData(NaNOnlyBlock(start)) == [DailyStats(DayOf(start), 0, 0)]
  {
    NaNOnlyReadings(start);
    SingleNaNReading(NaNOnlyBlock(start), DayOf(start));
  }

  /** A payload whose one reading is a NaN gives one 0/0 record on its day. */
  lemma SingleNaNReading(details: seq<Detail>, day: int)
    requires Readings(details) == [Reading(day, None)]
    ensures ProcessBodyBatteryData(details) == [DailyStats(day, 0, 0)]
  {
    var rs := Readings(details);
    OneNaNReading(rs, day);
    var stats := ProcessBodyBatteryData(details);
    OneRecordPerDay(stats);
    assert |stats| == 1;
    var e := stats[0];
    assert e in stats;
    assert e.day == day by {
      assert e.day in DaysIn(stats);
    }
    assert Reports(e, NumericOn(rs, day));
    assert stats == [DailyStats(day, 0, 0)];
  }

  function NaNOnlyBlock(start: int): seq<Detail>
  {
    [Detail(start, Some([Sample(0, None)]))]
  }

  lemma NaNOnlyReadings(start: int)
    ensures Readings(NaNOnlyBlock(start)) == [Reading(DayOf(start), None)]
  {
    var details := NaNOnlyBlock(start);
    assert details[..0] == [];
    assert DetailReadings(details[0]) == [Reading(DayOf(start + 0), None)];
  }

  lemma OneNaNReading(rs: seq<Reading>, day: int)
    requires rs == [Reading(day, None)]
    ensures DaysOf(rs) == {day}
    ensures NumericOn(rs, day) == {}
  {
    assert rs[0] in rs;
  }
}

=== FILE: garmin.dfy ===
/** The Garmin session: the in-memory token pair, its persisted copy, the
    OAuth 2.0 authorization-code grant (section 4.1.3 of RFC 6749) and refresh
    (section 6 of RFC 6749), and the stress-details download that refreshes on
    a 401. Storage writes, HTTP replies and JSON decoding are inputs. */
module Garmin {
  import opened Optional
  import BodyBattery

  /** JavaScript truthiness of a `string | null | undefined` value: `null`,
      `undefined` and the empty string are all false. */
  predicate Present(s: Option<string>)
  {
    s.Some? && |s.value| > 0
  }

  /** A decoded token response. `JSON.parse` does not check the shape, so a
      missing field reads as `undefined`, here `None`. `expires_in` and
      `token_type` travel in the persisted blob but are never read. */
  datatype AuthTokens = AuthTokens(accessToken: Option<string>, refreshToken: Option<string>)

  /** The `accessToken`/`refreshToken` fields of the service. */
  datatype Session = Session(access: Option<string>, refresh: Option<string>)

  const SignedOut := Session(None, None)

  /** The service: its in-memory session and the blob stored under the
      `garmin_tokens` key (`None` when the key is absent). */
  datatype Service = Service(session: Session, stored: Option<AuthTokens>)

  const Fresh := Service(SignedOut, None)

  function SessionOf(t: AuthTokens): Session
  {
    Session(t.accessToken, t.refreshToken)
  }

  /** The in-memory session is the one the persisted blob holds. */
  ghost predicate Mirrors(g: Service)
  {
    match g.stored
    case None => g.session == SignedOut
    case Some(t) => g.session == SessionOf(t)
  }

  /** Whether the secure-store (or `localStorage`) call completed or threw. */
  datatype StoreOutcome = StoreOk | StoreFail

  /** `EXPO_PUBLIC_GARMIN_CLIENT_ID` and `EXPO_PUBLIC_GARMIN_CLIENT_SECRET`. */
  datatype Credentials = Credentials(clientId: Option<string>, clientSecret: Option<string>)

  datatype Grant = AuthorizationCode(code: string) | RefreshGrant(refreshToken: string)

  /** What goes on the wire. A token request carries HTTP Basic client
      authentication (RFC 7617) built from the credentials as configured; a
      data request carries a Bearer token (section 2.1 of RFC 6750). */
  datatype Request =
    | TokenRequest(client: Credentials, grant: Grant)
    | StressDetailsRequest(bearer: string, uploadStart: int, uploadEnd: int)

  /** The settled `fetch`: a response, or a rejected promise. */
  datatype Reply = Delivered(status: int, body: string) | NetworkFailure

  /** `response.ok`. */
  predicate IsOk(status: int)
  {
    200 <= status <= 299
  }

  const Unauthorized := 401

  /** The decoded body of a stress-details response. */
  datatype StressPayload = StressPayload(stressDetails: Option<seq<BodyBattery.Detail>>)

  /** `JSON.parse` / `response.json()` on a body; `None` when it throws. */
  datatype Decoder = Decoder(tokens: string -> Option<AuthTokens>, stress: string -> Option<StressPayload>)

  datatype GarminError =
    | CredentialsNotConfigured
    | ExchangeFailed(status: int, body: string)
    | InvalidTokenResponse
    | NotAuthenticated
    | NoRefreshToken
    | RefreshFailed(body: string)
    | FetchFailed(body: string)
    | MalformedJson
    | NetworkError
      /** The model ran out of server rounds while the source would still be
          recursing. */
    | RoundsExhausted
      /** Only in `FetchWithSingleRetry`: the retried request got a 401 too. */
    | StillUnauthorized

  datatype Result<T> = Ok(value: T) | Err(error: GarminError)

  /** The end of one operation: the service afterwards, the requests sent in
      order, and the value returned or the error thrown. */
  datatype Step<T> = Step(after: Service, sent: seq<Request>, result: Result<T>)

  /** What the world answers during one pass of `fetchBodyBatteryData`: the
      data reply, and, should that be a 401, the refresh reply and the outcome
      of saving the refreshed tokens. */
  datatype Round = Round(data: Reply, refresh: Reply, store: StoreOutcome)

  /** The number of refresh-token grants among the requests. */
  function RefreshCount(sent: seq<Request>): nat
  {
    if |sent| == 0 then 0
    else (if sent[0].TokenRequest? && sent[0].grant.RefreshGrant? then 1 else 0) + RefreshCount(sent[1..])
  }

  lemma {:induction false} RefreshCountAppend(a: seq<Request>, b: seq<Request>)
    ensures RefreshCount(a + b) == RefreshCount(a) + RefreshCount(b)
  {
    if |a| == 0 {
      assert a + b == b;
    } else {
      assert (a + b)[0] == a[0];
      assert (a + b)[1..] == a[1..] + b;
      RefreshCountAppend(a[1..], b);
    }
  }

  // ---------------------------------------------------------------------
  // Session transitions

  /** `isAuthenticated()`: `!!this.accessToken`, so an empty token counts as
      signed out. */
  function IsAuthenticated(g: Service): (b: bool)
    ensures b <==> g.session.access.Some? && g.session.access.value != ""
  {
    Present(g.session.access)
  }

  /** `saveTokens`: write the blob first; only if the write completed, take
      both tokens from it. A failed write is logged and swallowed. */
  function SaveTokens(g: Service, t: AuthTokens, store: StoreOutcome): (g': Service)
    ensures store == StoreOk ==> g'.session == SessionOf(t) && g'.stored == Some(t)
    ensures store == StoreFail ==> g' == g
    ensures store == StoreOk || Mirrors(g) ==> Mirrors(g')
  {
    match store
    case StoreOk => Service(SessionOf(t), Some(t))
    case StoreFail => g
  }

  /** `clearTokens`: delete the blob first; only if that completed, drop both
      tokens. A failed delete is logged and swallowed. */
  function ClearTokens(g: Service, store: StoreOutcome): (g': Service)
    ensures store == StoreOk ==> g' == Fresh && !IsAuthenticated(g')
    ensures store == StoreFail ==> g' == g
    ensures g == Fresh ==> g' == g
    ensures store == StoreOk || Mirrors(g) ==> Mirrors(g')
  {
    match store
    case StoreOk => Service(SignedOut, None)
    case StoreFail => g
  }

  /** `exchangeCodeForToken`: refuse without credentials, post the code with
      Basic client authentication, reject a non-2xx reply with its status and
      body, reject a body that does not decode, and otherwise save the
      tokens. Every failure leaves the service as it was. */
  function ExchangeCodeForToken(g: Service, env: Credentials, json: Decoder, code: string,
                                reply: Reply, store: StoreOutcome): (r: Step<()>)
    ensures !Present(env.clientId) || !Present(env.clientSecret) ==>
      r == Step(g, [], Err(CredentialsNotConfigured))
    ensures Present(env.clientId) && Present(env.clientSecret) ==>
      r.sent == [TokenRequest(env, AuthorizationCode(code))]
    ensures r.result.Err? ==> r.after == g
    ensures Present(env.clientId) && Present(env.clientSecret) && reply.NetworkFailure? ==>
      r.result == Err(NetworkError)
    ensures Present(env.clientId) && Present(env.clientSecret) && reply.Delivered? && !IsOk(reply.status) ==>
      r.result == Err(ExchangeFailed(reply.status, reply.body))
    ensures Present(env.clientId) && Present(env.clientSecret) && reply.Delivered? && IsOk(reply.status)
            && json.tokens(reply.body).None? ==>
      r.result == Err(InvalidTokenResponse)
    ensures r.result.Ok? <==>
      Present(env.clientId) && Present(env.clientSecret) && reply.Delivered? && IsOk(reply.status)
      && json.tokens(reply.body).Some?
    ensures r.result.Ok? ==> r.after == SaveTokens(g, json.tokens(reply.body).value, store)
    ensures Mirrors(g) ==> Mirrors(r.after)
  {
    if !Present(env.clientId) || !Present(env.clientSecret) then
      Step(g, [], Err(CredentialsNotConfigured))
    else
      var request := TokenRequest(env, AuthorizationCode(code));
      match reply
      case NetworkFailure => Step(g, [request], Err(NetworkError))
      case Delivered(status, body) =>
        if !IsOk(status) then Step(g, [request], Err(ExchangeFailed(status, body)))
        else
          match json.tokens(body)
          case None => Step(g, [request], Err(InvalidTokenResponse))
          case Some(t) => Step(SaveTokens(g, t, store), [request], Ok(()))
  }

  /** `refreshAccessToken`: refuse without a refresh token, post it with Basic
      client authentication (the credentials are not checked here), reject a
      non-2xx reply with its body, and otherwise save the new tokens. Every
      failure leaves both tokens as they were. */
  function RefreshAccessToken(g: Service, env: Credentials, json: Decoder,
                              reply: Reply, store: StoreOutcome): (r: Step<()>)
    ensures !Present(g.session.refresh) ==> r == Step(g, [], Err(NoRefreshToken))
    ensures Present(g.session.refresh) ==>
      r.sent == [TokenRequest(env, RefreshGrant(g.session.refresh.value))]
    ensures r.result.Err? ==> r.after == g
    ensures Present(g.session.refresh) && reply.Delivered? && !IsOk(reply.status) ==>
      r.result == Err(RefreshFailed(reply.body))
    ensures Present(g.session.refresh) && reply.NetworkFailure? ==> r.result == Err(NetworkError)
    ensures Present(g.session.refresh) && reply.Delivered? && IsOk(reply.status) && json.tokens(reply.body).None? ==>
      r.result == Err(MalformedJson)
    ensures r.result.Ok? <==>
      Present(g.session.refresh) && reply.Delivered? && IsOk(reply.status) && json.tokens(reply.body).Some?
    ensures r.result.Ok? ==> r.after == SaveTokens(g, json.tokens(reply.body).value, store)
    ensures Mirrors(g) ==> Mirrors(r.after)
  {
    if !Present(g.session.refresh) then Step(g, [], Err(NoRefreshToken))
    else
      var request := TokenRequest(env, RefreshGrant(g.session.refresh.value));
      match reply
      case NetworkFailure => Step(g, [request], Err(NetworkError))
      case Delivered(status, body) =>
        if !IsOk(status) then Step(g, [request], Err(RefreshFailed(body)))
        else
          match json.tokens(body)
          case None => Step(g, [request], Err(MalformedJson))
          case Some(t) => Step(SaveTokens(g, t, store), [request], Ok(()))
  }

  // ---------------------------------------------------------------------
  // Downloading body-battery data

  /** What one stress-details reply yields: `None` for a 401, which asks for a
      refresh; otherwise the records of a 2xx body (a missing `stressDetails`
      read as empty) or the error. */
  function Answer(json: Decoder, reply: Reply): (a: Option<Result<seq<BodyBattery.DailyStats>>>)
    ensures a.None? <==> reply.Delivered? && reply.status == Unauthorized
    ensures a.Some? && a.value.Ok? <==>
      reply.Delivered? && IsOk(reply.status) && json.stress(reply.body).Some?
    ensures a.Some? && a.value.Ok? ==>
      a.value.value == BodyBattery.ProcessBodyBatteryData(json.stress(reply.body).value.stressDetails.GetOr([]))
    ensures reply.Delivered? && !IsOk(reply.status) && reply.status != Unauthorized ==>
      a == Some(Err(FetchFailed(reply.body)))
    ensures reply.NetworkFailure? ==> a == Some(Err(NetworkError))
    ensures reply.Delivered? && IsOk(reply.status) && json.stress(reply.body).None? ==> a == Some(Err(MalformedJson))
  {
    match reply
    case NetworkFailure => Some(Err(NetworkError))
    case Delivered(status, body) =>
      if IsOk(status) then
        match json.stress(body)
        case None => Some(Err(MalformedJson))
        case Some(payload) => Some(Ok(BodyBattery.ProcessBodyBatteryData(payload.stressDetails.GetOr([]))))
      else if status == Unauthorized then None
      else Some(Err(FetchFailed(body)))
  }

  /** `fetchBodyBatteryData`, as written: fail before any request without an
      access token; on a 401, refresh and call itself again, with no bound on
      how often. Each pass consumes one `Round`. */
  function FetchBodyBatteryData(g: Service, env: Credentials, json: Decoder,
                                uploadStart: int, uploadEnd: int, rounds: seq<Round>)
    : (r: Step<seq<BodyBattery.DailyStats>>)
    ensures !IsAuthenticated(g) ==> r == Step(g, [], Err(NotAuthenticated))
    ensures IsAuthenticated(g) && |rounds| > 0 ==>
      |r.sent| > 0 && r.sent[0] == StressDetailsRequest(g.session.access.value, uploadStart, uploadEnd)
    ensures IsAuthenticated(g) && |rounds| > 0 && Answer(json, rounds[0].data).Some? ==>
      r == Step(g, [StressDetailsRequest(g.session.access.value, uploadStart, uploadEnd)],
                Answer(json, rounds[0].data).value)
    ensures |r.sent| <= 2 * |rounds|
    ensures RefreshCount(r.sent) <= |rounds|
    ensures RefreshCount(r.sent) == 0 ==> r.after == g
    ensures Mirrors(g) ==> Mirrors(r.after)
    decreases |rounds|
  {
    if !Present(g.session.access) then Step(g, [], Err(NotAuthenticated))
    else if |rounds| == 0 then Step(g, [], Err(RoundsExhausted))
    else
      var request := StressDetailsRequest(g.session.access.value, uploadStart, uploadEnd);
      match Answer(json, rounds[0].data)
      case Some(result) => Step(g, [request], result)
      case None =>
        var refreshed := RefreshAccessToken(g, env, json, rounds[0].refresh, rounds[0].store);
        if refreshed.result.Err? then
          RefreshCountAppend([request], refreshed.sent);
          Step(refreshed.after, [request] + refreshed.sent, Err(refreshed.result.error))
        else
          var retry := FetchBodyBatteryData(refreshed.after, env, json, uploadStart, uploadEnd, rounds[1..]);
          RefreshCountAppend([request], refreshed.sent);
          RefreshCountAppend([request] + refreshed.sent, retry.sent);
          Step(retry.after, [request] + refreshed.sent + retry.sent, retry.result)
  }

  /** A 401 with no refresh token fails with "No refresh token available"
      after the one data request; neither token changes. */
  lemma UnauthorizedWithoutRefreshToken(g: Service, env: Credentials, json: Decoder,
                                        uploadStart: int, uploadEnd: int, rounds: seq<Round>, body: string)
    requires IsAuthenticated(g) && !Present(g.session.refresh)
    requires |rounds| > 0 && rounds[0].data == Delivered(Unauthorized, body)
    ensures FetchBodyBatteryData(g, env, json, uploadStart, uploadEnd, rounds) ==
      Step(g, [StressDetailsRequest(g.session.access.value, uploadStart, uploadEnd)], Err(NoRefreshToken))
  {
  }

  /** A 401 whose refresh is turned down fails with "Failed to refresh token"
      after the data request and the refresh request; neither token changes. */
  lemma UnauthorizedRefreshRejected(g: Service, env: Credentials, json: Decoder,
                                    uploadStart: int, uploadEnd: int, rounds: seq<Round>, status: int, body: string)
    requires IsAuthenticated(g) && Present(g.session.refresh)
    requires |rounds| > 0 && rounds[0].data.Delivered? && rounds[0].data.status == Unauthorized
    requires rounds[0].refresh == Delivered(status, body) && !IsOk(status)
    ensures FetchBodyBatteryData(g, env, json, uploadStart, uploadEnd, rounds) ==
      Step(g, [StressDetailsRequest(g.session.access.value, uploadStart, uploadEnd),
               TokenRequest(env, RefreshGrant(g.session.refresh.value))],
           Err(RefreshFailed(body)))
  {
  }

  /** A 401, a successful refresh whose tokens are saved, and a 2xx on the
      retry: exactly one retried request, made with the new access token, and
      the retry's records as the result. */
  lemma RefreshThenRetrySucceeds(g: Service, env: Credentials, json: Decoder,
                                 uploadStart: int, uploadEnd: int, rounds: seq<Round>, t: AuthTokens)
    requires IsAuthenticated(g) && Present(g.session.refresh) && Present(t.accessToken)
    requires |rounds| >= 2
    requires rounds[0].data.Delivered? && rounds[0].data.status == Unauthorized
    requires rounds[0].refresh.Delivered? && IsOk(rounds[0].refresh.status)
    requires json.tokens(rounds[0].refresh.body) == Some(t) && rounds[0].store == StoreOk
    requires rounds[1].data.Delivered? && IsOk(rounds[1].data.status) && json.stress(rounds[1].data.body).Some?
    ensures var r := FetchBodyBatteryData(g, env, json, uploadStart, uploadEnd, rounds);
      && r.after == SaveTokens(g, t, StoreOk)
      && r.sent == [StressDetailsRequest(g.session.access.value, uploadStart, uploadEnd),
                    TokenRequest(env, RefreshGrant(g.session.refresh.value)),
                    StressDetailsRequest(t.accessToken.value, uploadStart, uploadEnd)]
      && r.result == Ok(BodyBattery.ProcessBodyBatteryData(
           json.stress(rounds[1].data.body).value.stressDetails.GetOr([])))
  {
    var g' := SaveTokens(g, t, StoreOk);
    var refresh := TokenRequest(env, RefreshGrant(g.session.refresh.value));
    var records := BodyBattery.ProcessBodyBatteryData(json.stress(rounds[1].data.body).value.stressDetails.GetOr([]));
    assert Answer(json, rounds[0].data).None?;
    assert RefreshAccessToken(g, env, json, rounds[0].refresh, rounds[0].store) == Step(g', [refresh], Ok(()));
    assert rounds[1..][0] == rounds[1];
    assert Answer(json, rounds[1].data) == Some(Ok(records));
    assert FetchBodyBatteryData(g', env, json, uploadStart, uploadEnd, rounds[1..]) ==
      Step(g', [StressDetailsRequest(t.accessToken.value, uploadStart, uploadEnd)], Ok(records));
  }

  // ---------------------------------------------------------------------
  // The unbounded retry, and the single-retry version

  /** A world in which every token write fails while the data endpoint keeps
      answering 401 and the token endpoint keeps accepting the refresh. */
  ghost predicate BrokenStoreLoop(json: Decoder, rounds: seq<Round>)
  {
    forall i :: 0 <= i < |rounds| ==>
      && rounds[i].data.Delivered? && rounds[i].data.status == Unauthorized
      && rounds[i].refresh.Delivered? && IsOk(rounds[i].refresh.status)
      && json.tokens(rounds[i].refresh.body).Some?
      && rounds[i].store == StoreFail
  }

  /** As written, that world is retried for as long as it lasts: `saveTokens`
      swallows the failed write, the old token is sent again, and every pass
      makes one more refresh request. */
  lemma {:induction false} BrokenStoreRefreshesForever(g: Service, env: Credentials, json: Decoder,
                                                       uploadStart: int, uploadEnd: int, rounds: seq<Round>)
    requires IsAuthenticated(g) && Present(g.session.refresh)
    requires BrokenStoreLoop(json, rounds)
    ensures var r := FetchBodyBatteryData(g, env, json, uploadStart, uploadEnd, rounds);
      && r.after == g
      && r.result == Err(RoundsExhausted)
      && |r.sent| == 2 * |rounds|
      && RefreshCount(r.sent) == |rounds|
    ensures var r := FetchBodyBatteryData(g, env, json, uploadStart, uploadEnd, rounds);
      forall i :: 0 <= i < |rounds| ==>
        && r.sent[2 * i] == StressDetailsRequest(g.session.access.value, uploadStart, uploadEnd)
        && r.sent[2 * i + 1] == TokenRequest(env, RefreshGrant(g.session.refresh.value))
    decreases |rounds|
  {
    if |rounds| > 0 {
      BrokenStoreTail(json, rounds);
      BrokenStoreRefreshesForever(g, env, json, uploadStart, uploadEnd, rounds[1..]);
      var request := StressDetailsRequest(g.session.access.value, uploadStart, uploadEnd);
      var refresh := TokenRequest(env, RefreshGrant(g.session.refresh.value));
      var rest := FetchBodyBatteryData(g, env, json, uploadStart, uploadEnd, rounds[1..]);
      BrokenStorePass(g, env, json, uploadStart, uploadEnd, rounds);
      RefreshCountAppend([request], [refresh]);
      RefreshCountAppend([request, refresh], rest.sent);
      assert RefreshCount([refresh]) == 1;
      RepeatedPairs([request, refresh] + rest.sent, rest.sent, request, refresh, |rounds|);
    }
  }

  /** The tail of a broken-store world is one too. */
  lemma BrokenStoreTail(json: Decoder, rounds: seq<Round>)
    requires |rounds| > 0 && BrokenStoreLoop(json, rounds)
    ensures BrokenStoreLoop(json, rounds[1..])
  {
    forall i | 0 <= i < |rounds[1..]|
      ensures rounds[1..][i] == rounds[i + 1]
    {
    }
  }

  /** One pass of the broken-store world: the data request and the refresh
      request go out with the same tokens, and the state does not move. */
  lemma BrokenStorePass(g: Service, env: Credentials, json: Decoder,
                        uploadStart: int, uploadEnd: int, rounds: seq<Round>)
    requires IsAuthenticated(g) && Present(g.session.refresh)
    requires |rounds| > 0 && BrokenStoreLoop(json, rounds)
    ensures var rest := FetchBodyBatteryData(g, env, json, uploadStart, uploadEnd, rounds[1..]);
      FetchBodyBatteryData(g, env, json, uploadStart, uploadEnd, rounds)
      == Step(rest.after,
              [StressDetailsRequest(g.session.access.value, uploadStart, uploadEnd),
               TokenRequest(env, RefreshGrant(g.session.refresh.value))] + rest.sent,
              rest.result)
  {
    var refresh := TokenRequest(env, RefreshGrant(g.session.refresh.value));
    assert Answer(json, rounds[0].data).None?;
    assert RefreshAccessToken(g, env, json, rounds[0].refresh, rounds[0].store) == Step(g, [refresh], Ok(()));
  }

  /** Prefixing one more `a, b` pair to a list of `n - 1` such pairs gives `n`. */
  lemma RepeatedPairs(s: seq<Request>, t: seq<Request>, a: Request, b: Request, n: nat)
    requires n > 0 && s == [a, b] + t && |t| == 2 * (n - 1)
    requires forall i :: 0 <= i < n - 1 ==> t[2 * i] == a && t[2 * i + 1] == b
    ensures forall i :: 0 <= i < n ==> s[2 * i] == a && s[2 * i + 1] == b
  {
    forall i | 1 <= i < n
      ensures s[2 * i] == a && s[2 * i + 1] == b
    {
      assert s[2 * i] == t[2 * (i - 1)];
      assert s[2 * i + 1] == t[2 * (i - 1) + 1];
    }
  }

  /** The bounded variant of `fetchBodyBatteryData`: at most one refresh per
      call, and a 401 on the retried request is surfaced as an error instead
      of refreshing again. */
  function FetchWithSingleRetry(g: Service, env: Credentials, json: Decoder,
                                uploadStart: int, uploadEnd: int, rounds: seq<Round>)
    : (r: Step<seq<BodyBattery.DailyStats>>)
    ensures !IsAuthenticated(g) ==> r == Step(g, [], Err(NotAuthenticated))
    ensures RefreshCount(r.sent) <= 1
    ensures |r.sent| <= 3
    ensures |rounds| >= 2 ==> r.result != Err(RoundsExhausted)
    ensures Mirrors(g) ==> Mirrors(r.after)
  {
    FetchAttempt(g, env, json, uploadStart, uploadEnd, rounds, false)
  }

  function FetchAttempt(g: Service, env: Credentials, json: Decoder,
                        uploadStart: int, uploadEnd: int, rounds: seq<Round>, retried: bool)
    : (r: Step<seq<BodyBattery.DailyStats>>)
    ensures !IsAuthenticated(g) ==> r == Step(g, [], Err(NotAuthenticated))
    ensures RefreshCount(r.sent) <= (if retried then 0 else 1)
    ensures |r.sent| <= (if retried then 1 else 3)
    ensures |rounds| >= (if retried then 1 else 2) ==> r.result != Err(RoundsExhausted)
    ensures Mirrors(g) ==> Mirrors(r.after)
    decreases if retried then 0 else 1
  {
    if !Present(g.session.access) then Step(g, [], Err(NotAuthenticated))
    else if |rounds| == 0 then Step(g, [], Err(RoundsExhausted))
    else
      var request := StressDetailsRequest(g.session.access.value, uploadStart, uploadEnd);
      match Answer(json, rounds[0].data)
      case Some(result) => Step(g, [request], result)
      case None =>
        if retried then Step(g, [request], Err(StillUnauthorized))
        else
          var refreshed := RefreshAccessToken(g, env, json, rounds[0].refresh, rounds[0].store);
          if refreshed.result.Err? then
            RefreshCountAppend([request], refreshed.sent);
            Step(refreshed.after, [request] + refreshed.sent, Err(refreshed.result.error))
          else
            var retry := FetchAttempt(refreshed.after, env, json, uploadStart, uploadEnd, rounds[1..], true);
            RefreshCountAppend([request], refreshed.sent);
            RefreshCountAppend([request] + refreshed.sent, retry.sent);
            Step(retry.after, [request] + refreshed.sent + retry.sent, retry.result)
  }

  /** The bounded version differs from the code only when the retried
      request is answered with a second 401. */
  lemma SingleRetryAgreesUnlessRetryUnauthorized(g: Service, env: Credentials, json: Decoder,
                                                 uploadStart: int, uploadEnd: int, rounds: seq<Round>)
    requires |rounds| >= 2 ==> !(rounds[1].data.Delivered? && rounds[1].data.status == Unauthorized)
    ensures FetchWithSingleRetry(g, env, json, uploadStart, uploadEnd, rounds) ==
      FetchBodyBatteryData(g, env, json, uploadStart, uploadEnd, rounds)
  {
    if Present(g.session.access) && |rounds| > 0 && Answer(json, rounds[0].data).None? {
      var refreshed := RefreshAccessToken(g, env, json, rounds[0].refresh, rounds[0].store);
      if refreshed.result.Ok? && Present(refreshed.after.session.access) && |rounds| >= 2 {
        assert rounds[1..][0] == rounds[1];
        assert Answer(json, rounds[1].data).Some?;
      }
    }
  }

  // ---------------------------------------------------------------------
  // Properties of the session as a whole

  /** A code exchange that succeeds, with the tokens saved, signs the user in
      from any state. */
  lemma ExchangeAuthenticates(g: Service, env: Credentials, json: Decoder, code: string, body: string, status: int)
    requires Present(env.clientId) && Present(env.clientSecret)
    requires IsOk(status) && json.tokens(body).Some? && Present(json.tokens(body).value.accessToken)
    ensures var r := ExchangeCodeForToken(g, env, json, code, Delivered(status, body), StoreOk);
      r.result.Ok? && IsAuthenticated(r.after) && Mirrors(r.after)
  {
  }

  /** As written, a code exchange whose token write fails still reports
      success, yet the session keeps its old tokens. */
  lemma ExchangeStoreFailureKeepsSession(g: Service, env: Credentials, json: Decoder, code: string, body: string, status: int)
    requires Present(env.clientId) && Present(env.clientSecret)
    requires IsOk(status) && json.tokens(body).Some?
    ensures ExchangeCodeForToken(g, env, json, code, Delivered(status, body), StoreFail) ==
      Step(g, [TokenRequest(env, AuthorizationCode(code))], Ok(()))
  {
  }

  /** Clearing twice is clearing once, whatever the second delete does. */
  lemma ClearTokensIdempotent(g: Service, second: StoreOutcome)
    ensures ClearTokens(ClearTokens(g, StoreOk), second) == ClearTokens(g, StoreOk)
  {
  }
}

=== FILE: life_changes_store.dfy ===
/** The app's state store: the logged life changes (newest first), the
    body-battery records on display, and the signed-in flag. Each action is a
    pure transition from one state to the next. */
module LifeChangesStore {
  import opened Optional
  import BodyBattery

  datatype ChangeKind = Start | Stop

  datatype ImpactKind = Positive | Negative

  datatype Impact = Impact(value: int, kind: ImpactKind)

  /** A change as the form submits it: everything but the id. */
  datatype Draft = Draft(kind: ChangeKind, name: string, date: string, impact: Option<Impact>)

  datatype LifeChange = LifeChange(id: string, kind: ChangeKind, name: string, date: string, impact: Option<Impact>)

  datatype State = State(changes: seq<LifeChange>, bodyBatteryData: seq<BodyBattery.DailyStats>, isAuthenticated: bool)

  /** `{ ...change, id }`; the id is the caller's (the store takes it from
      the clock). */
  function Stamp(d: Draft, id: string): (c: LifeChange)
    ensures c.id == id
    ensures Unstamp(c) == d
  {
    LifeChange(id, d.kind, d.name, d.date, d.impact)
  }

  /** The fields of a change other than its id. */
  function Unstamp(c: LifeChange): Draft
  {
    Draft(c.kind, c.name, c.date, c.impact)
  }

  /** The state the store is created with: nothing logged, nothing to
      display, signed out. */
  function Initial(): (s: State)
    ensures GetLatestChange(s) == None
    ensures |s.bodyBatteryData| == 0
    ensures !s.isAuthenticated
  {
    State([], [], false)
  }

  /** `addChange`: the new change goes in front; the older ones follow in
      their old order; nothing else changes. */
  function AddChange(s: State, d: Draft, id: string): (s': State)
    ensures |s'.changes| == |s.changes| + 1
    ensures s'.changes[0].id == id && Unstamp(s'.changes[0]) == d
    ensures forall i :: 0 <= i < |s.changes| ==> s'.changes[i + 1] == s.changes[i]
    ensures s'.bodyBatteryData == s.bodyBatteryData && s'.isAuthenticated == s.isAuthenticated
  {
    s.(changes := [Stamp(d, id)] + s.changes)
  }

  /** `getLatestChange`: null exactly when nothing is logged; otherwise the
      front change. */
  function GetLatestChange(s: State): (c: Option<LifeChange>)
    ensures c.None? <==> |s.changes| == 0
    ensures c.Some? ==> c.value == s.changes[0]
  {
    if |s.changes| == 0 then None else Some(s.changes[0])
  }

  /** `setBodyBatteryData`: replaces the records and nothing else. */
  function SetBodyBatteryData(s: State, data: seq<BodyBattery.DailyStats>): (s': State)
    ensures s'.bodyBatteryData == data
    ensures s'.changes == s.changes && s'.isAuthenticated == s.isAuthenticated
  {
    s.(bodyBatteryData := data)
  }

  /** `setAuthenticated`: replaces the flag and nothing else. */
  function SetAuthenticated(s: State, status: bool): (s': State)
    ensures s'.isAuthenticated == status
    ensures s'.changes == s.changes && s'.bodyBatteryData == s.bodyBatteryData
  {
    s.(isAuthenticated := status)
  }

  /** After `addChange`, the latest change is the one just added, with its id. */
  lemma LatestAfterAdd(s: State, d: Draft, id: string)
    ensures GetLatestChange(AddChange(s, d, id)) == Some(Stamp(d, id))
  {
  }

  /** Neither setter disturbs the change history. */
  lemma SettersKeepLatest(s: State, data: seq<BodyBattery.DailyStats>, status: bool)
    ensures GetLatestChange(SetBodyBatteryData(s, data)) == GetLatestChange(s)
    ensures GetLatestChange(SetAuthenticated(s, status)) == GetLatestChange(s)
  {
  }

  /** A run of `addChange` calls, in order. */
  function AddAll(s: State, drafts: seq<(Draft, string)>): State
  {
    if |drafts| == 0 then s
    else AddChange(AddAll(s, drafts[..|drafts| - 1]), drafts[|drafts| - 1].0, drafts[|drafts| - 1].1)
  }

  /** The stamped drafts, newest first. */
  function NewestFirst(drafts: seq<(Draft, string)>): seq<LifeChange>
  {
    if |drafts| == 0 then []
    else [Stamp(drafts[|drafts| - 1].0, drafts[|drafts| - 1].1)] + NewestFirst(drafts[..|drafts| - 1])
  }

  /** After a run of additions the history is the additions in reverse order
      followed by the earlier history, and the other fields are untouched. */
  lemma {:induction false} AddAllNewestFirst(s: State, drafts: seq<(Draft, string)>)
    ensures AddAll(s, drafts).changes == NewestFirst(drafts) + s.changes
    ensures AddAll(s, drafts).bodyBatteryData == s.bodyBatteryData
    ensures AddAll(s, drafts).isAuthenticated == s.isAuthenticated
  {
    if |drafts| > 0 {
      var n := |drafts| - 1;
      var before := AddAll(s, drafts[..n]);
      var head := Stamp(drafts[n].0, drafts[n].1);
      AddAllNewestFirst(s, drafts[..n]);
      assert AddAll(s, drafts) == before.(changes := [head] + before.changes);
      assert NewestFirst(drafts) == [head] + NewestFirst(drafts[..n]);
      assert [head] + (NewestFirst(drafts[..n]) + s.changes) == ([head] + NewestFirst(drafts[..n])) + s.changes;
    }
  }
}

=== FILE: optional.dfy ===
/** The nullable values of the model: JavaScript's `null`, `undefined` and
    NaN all become `None`. */
module Optional {

  datatype Option<T> = None | Some(value: T) {

    /** The value, or `default` when there is none (the `x || default` idiom). */
    function GetOr(default: T): T
    {
      match this
      case Some(v) => v
      case None => default
    }
  }
}
